=== FILE: README.md ===
# Folder-structure tree renderer, modelled in Dafny

`list_folder_structure.py` walks a directory and writes it as an indented tree.
It uses `├── ` / `└── ` connectors and `│   ` / four-space indents. Sizes and
modification times are optional, files get icons by suffix, and the walk can have a
depth limit, a glob filter and a folders-only mode. This project models the core of
that script as pure functions over an immutable filesystem tree:

- `FileTree` (tree.dfy): the tree (`Node` = `File` | `Dir`; a directory carries
  the `Listing` outcome of listing it, `Listed(children)` or `Failed(error)`). It
  also holds the name order `sorted` imposes, the entry counter `count_items`
  (`CountItems`, a worklist loop shaped like `os.walk`), and the recursive
  directory size sum (`DirTotal`).
- `SizeFormat` (size_format.dfy): `get_size_str`, with its unit choice and its
  two-decimal text. The text uses round-half-even on the exact quotient, which is
  what `format(x, ".2f")` does for these quotients.
- `Icons` (icons.dfy): the first-match-wins suffix chain that picks a file's icon.
- `Render` (render.dfy): `write_structure` as `WalkDir`/`Emit`/`Block`. Each of
  these returns structured rows (`prefix`, `connector`, entry), and `RowText`
  turns a row into the line the script writes. `Body` is the report body.
- `RenderProps` (render_props.dfy): the properties of the walk: nesting, the depth
  cutoff, order, connectors, filtering, error lines, and agreement with the counter.
- `Text` (text.dfy) and `Wrappers` (wrappers.dfy): decimal numerals, suffix tests,
  code-point string order, and `Option`.

The filesystem calls become data. `os.listdir` failing is a `Failed` listing
(`PermissionDenied`, or `OtherError(message)` for any other exception).
`os.path.getsize` or `os.path.getmtime` failing is a `None` size or time. A root
that is a plain file is a `Failed(OtherError(...))` listing from the caller, which
is what `os.listdir` raises on it. `fnmatch.fnmatch` is the `globMatch` function
carried in `Config`. An absent or empty pattern filters nothing, as `if file_filter:`
does. The output markers are the script's own strings, such as `[无法访问: 权限不足]`
for a permission error and `(大小计算失败)` for a failed directory size.

Two behaviours of the code are worth stating up front:

- `count_items` does not stop on a directory it cannot list. `os.walk` without
  `onerror` skips it, so `CountItems` counts such a directory in its parent and
  nothing beneath it.
- `is_last` is decided by position in the full sorted listing, which includes the
  files that folders-only mode or the filter hide (see Findings). `Render.WalkDir`
  takes a `LastRule` parameter: `ByListing` is the code as written, and `ByShown`
  closes on the last row shown. Order, nesting, depth and error-line properties are
  proved for both rules. `Body` keeps the code's rule and `CorrectedBody` uses
  `ByShown`.

## Model

| member | source | states |
|---|---|---|
| Text.NatToString | list_folder_structure.py:33-34 | the byte count is written as a canonical decimal numeral (no leading zero) whose digits denote exactly the size |
| Text.NatToStringOfCanonical | list_folder_structure.py:33-34 | every canonical numeral is the rendering of its own value, so numeral rendering and reading are inverse |
| Text.NameLeTotal | list_folder_structure.py:83 | the name order used by `sorted` relates every two names |
| Text.NameLeAntisymmetric | list_folder_structure.py:83 | two names each ordered before the other are equal |
| Text.NameLeTransitive | list_folder_structure.py:83 | the name order is transitive, so with totality and antisymmetry it is a total order |
| FileTree.SortByNameIsTheSortedOrder | list_folder_structure.py:83 | on a listing whose entries have unique names, every name-ordered rearrangement equals `SortByName`'s result, so the order `sorted` produces is the only one possible |
| FileTree.SortByName | list_folder_structure.py:83 | the listing is ordered by name and is a permutation of what was listed (same multiset, same length) |
| FileTree.SumOverSort | list_folder_structure.py:83 | sorting a listing changes no sum over its entries |
| FileTree.CountItems | list_folder_structure.py:42-51 | returns the number of directories and of files at any depth strictly below the root, with no depth limit or filter; the root itself is not counted, and an unlistable directory counts but adds nothing below it |
| FileTree.DirTotalIsSumOfFiles | list_folder_structure.py:105-107 | a directory's size is the sum of the sizes of all files reachable beneath it, and is unavailable exactly when one of those sizes is |
| SizeFormat.UnitOf | list_folder_structure.py:33-39 | the unit is B below 1024 and otherwise the largest of KB, MB, GB not exceeding the size (thresholds 1024, 1024², 1024³), so exactly one unit applies |
| SizeFormat.RoundHalfEven | list_folder_structure.py:36-40 | the two-decimal amount is the nearest hundredth of the exact quotient, ties to the even hundredth |
| SizeFormat.SizeStrReadsBack | list_folder_structure.py:31-40 | the size text reads back as the chosen unit and an amount within half a hundredth of the true size in that unit; below 1024 it is exactly `"<n> B"` |
| SizeFormat.SizeStrLayout | list_folder_structure.py:33-40 | below 1 KiB the text is a canonical numeral followed by ` B`; from 1 KiB up it is a canonical whole part, `.`, exactly two digits, a space and the name of the unit `UnitOf` picks |
| SizeFormat.BytesBelowKiB | list_folder_structure.py:33-34 | 0 and 1023 bytes render as `0 B` and `1023 B` |
| SizeFormat.UnitThresholds | list_folder_structure.py:33-40 | 1024, 1024² and 1024³ bytes render as `1.00 KB`, `1.00 MB`, `1.00 GB` |
| SizeFormat.TiesGoToEven | list_folder_structure.py:35-36 | 1152 bytes (1.125 KB exactly) renders `1.12 KB`, 1408 bytes renders `1.38 KB` |
| SizeFormat.LastKiBAmountRoundsUp | list_folder_structure.py:35-36 | one byte short of a MiB stays in KB and reads `1024.00 KB` |
| Icons.EndsWithAnyMeaning | list_folder_structure.py:154 | `endswith` with a tuple holds iff the name ends with one of the suffixes |
| Icons.IconIsFirstMatchingClass | list_folder_structure.py:153-171 | the icon is that of the earliest class in the fixed order with a matching suffix |
| Icons.GenericIconIffNoClass | list_folder_structure.py:153-171 | the generic icon is given exactly to names that no class matches |
| Icons.UpperCaseIsGeneric | list_folder_structure.py:153-171 | matching is case-sensitive: `x.PY` gets the generic icon |
| Icons.TarballIsArchive | list_folder_structure.py:153-161 | `x.tar.gz` gets the archive icon through its `.gz` suffix |
| RenderProps.WalkNested | list_folder_structure.py:77-126 | a call beyond the depth limit emits nothing; every row it emits extends its prefix by whole four-character segments, at most one per level the limit still allows |
| RenderProps.DepthLimitBoundsLevels | list_folder_structure.py:77-79 | with `max_depth = k` no row lies below nesting level k+1 (the root's children are level 1), and a negative limit emits nothing |
| RenderProps.LastAllowedLevelHasNoDescendants | list_folder_structure.py:77-79 | a directory walked at depth k = max_depth still emits all its shown entries in name order, and nothing beneath them |
| RenderProps.OwnRowsFollowSortedListing | list_folder_structure.py:83-100 | a directory's own rows name exactly its shown entries (all sub-directories, the files the options let through) in sorted name order |
| RenderProps.ListingRuleConnectors | list_folder_structure.py:92-97 | as written, every own row but the last has `├── `, and the last has `└── ` iff the last entry of the full sorted listing is itself shown |
| RenderProps.ShownRuleConnectors | list_folder_structure.py:92-97 | under the corrected rule, the last shown row and only it has `└── ` |
| RenderProps.DirectoryRowPrecedesItsContents | list_folder_structure.py:122-126 | a directory's row comes first in its block, and every later row of the block starts with the prefix plus `"    "` if the directory was last, `"│   "` otherwise |
| RenderProps.UnlistableDirectoryLine | list_folder_structure.py:82-89 | a directory whose listing fails yields exactly one line: prefix, `├── `, the error marker |
| RenderProps.UnlistableChildBlock | list_folder_structure.py:82-126 | an unreadable sub-directory yields its own row and the error line beneath it, then the loop continues with the next sibling |
| RenderProps.UnlistableDirectorySizeIsZero | list_folder_structure.py:103-108 | with sizes on, an unreadable directory is annotated ` (0 B)`, since the size walk skips what it cannot list |
| RenderProps.DirectorySizeIsSumOfFiles | list_folder_structure.py:102-110 | a directory's size annotation is the rendered sum of all files beneath it, or the failure note when one of their sizes cannot be read |
| RenderProps.FilteringOnlyRemovesFileRows | list_folder_structure.py:128-133 | folders-only mode and the filter only remove file rows: the output is the unfiltered output minus the hidden files' rows, so directory and error rows, connectors and prefixes are unchanged; with folders-only no file row remains |
| RenderProps.DepthLimitShrinksWalk | list_folder_structure.py:77-79 | a depth limit only cuts rows off: the limited walk is never longer than the same walk with no limit |
| RenderProps.BodyLengthMatchesCounter | list_folder_structure.py:42-51 | with no limit and no filter the body has one line per counted folder and file plus one per failed listing; under any options (depth limit, folders-only, filter) it has at most that many |
| RenderProps.HiddenLastFileKeepsMidConnector | list_folder_structure.py:92-97 | a folder `a` followed by a file `b.txt` hidden by folders-only renders as `├── 📁 a` |
| RenderProps.CorrectedRuleClosesLastShownRow | list_folder_structure.py:92-97 | the same listing under the corrected rule renders as `└── 📁 a` |

## Left out

- Argument parsing, `main`, logging setup, the unused `tqdm` import and the exit code are CLI glue.
- The header block and the file writing (lines 69-75) are left out. The body is a sequence of lines without their line breaks. The header's scan time comes from the clock.
- The root-existence check (lines 59-61) and the boolean result of `scan_folder` are a filesystem query.
- `os.listdir`, `os.path.isdir`, `os.walk` and `os.path.getsize` are replaced by the tree.
- Symbolic links are not modelled. `os.walk` does not descend into a linked directory, but `os.path.isdir` follows the link.
- Modification times are opaque, already formatted strings. `time.strftime`/`localtime` depend on the clock and locale.
- Glob matching is the abstract `Config.globMatch`, because `fnmatch` is a foreign library.
- Names are Dafny strings, which hold only Unicode scalar values. On Linux, `os.listdir` (line 83) returns a name that the filesystem encoding cannot decode with lone surrogates. Writing such a name to the UTF-8 output (lines 122 and 174) raises `UnicodeEncodeError` outside any `try`, and the report stops mid-way. The model cannot express such names and does not model that abort.
- The model has no recursion limit, so it renders every finite tree in full. In the script, `write_structure` recurses once per level (line 126), outside any `try`. On a tree about 1000 levels deep with no depth limit, Python's recursion limit raises `RecursionError`, and the report stops part-way. Near that limit, the bare `except:` around the size and time lookups can also turn those annotations into failure notes first. Neither the abort nor those notes is modelled.
- Each entry has exactly one kind in the model, but the script classifies entries in two ways. The renderer uses `os.path.isdir` (line 100), which calls `stat` and answers False when `stat` fails. `os.walk` in the counter and the size sum (lines 47 and 106) uses the listing's own entry type and never calls `stat`. So an entry whose `stat` fails is a file to the renderer and a directory to `os.walk`. Examples are a sub-directory inside a directory that is readable but not searchable, or a path longer than `PATH_MAX`. The model cannot express such an entry. On such trees the renderer shows it as a `📄` row that folders-only mode and the filter can hide, while the counter counts it as a folder.
- RenderProps.BodyLengthMatchesCounter: the complete body it counts is what the script writes only when the walk stays within Python's recursion limit (see above), and only when `stat` succeeds on every entry `os.walk` reports as a directory (see the line above).
- RenderProps.FilteringOnlyRemovesFileRows: "directories are never hidden" holds for the script only when `stat` succeeds on every directory entry; an entry whose `stat` fails is rendered as a file (see above).
- The text of an `OtherError` message comes from the operating system and is carried as data.
- SizeFormat.SizeStrReadsBack: for sizes of 2^53 bytes (8 PiB) and above, the script first rounds the quotient to a double. The model rounds the exact quotient, so the last digit can differ there.
- Sorting uses code-point order of names. The relative order of two entries with the same name is not fixed, but a directory cannot hold two.
- Running the renderer twice on the same tree and options gives the same body. This holds because every member is a pure function, so no lemma states it.

## Findings

| source | as written | input that shows it | evidently intended | confidence | as-written member | corrected member |
|---|---|---|---|---|---|---|
| list_folder_structure.py:92-97 | `is_last` compares the index with the length of the full sorted listing, counting files that folders-only mode or the filter hide | a directory holding folder `a` and file `b.txt`, rendered folders-only, gives the single line `├── 📁 a` | the last line shown closes the directory with `└── `, and its children get the blank indent | medium; not executed | RenderProps.HiddenLastFileKeepsMidConnector | RenderProps.ShownRuleConnectors |

=== FILE: icons.dfy ===
/**
 The file-type icon of a listed file: a fixed, case-sensitive chain of suffix
 classes in which the first class with a matching suffix wins.
 */
module Icons {
  import opened Text

  const GenericIcon: string := "📄"
  const PictureIcon: string := "🖼️"
  const FilmIcon: string := "🎬"
  const MusicIcon: string := "🎵"
  const PackageIcon: string := "📦"
  const NoteIcon: string := "📝"
  const DocumentIcon: string := "📑"
  const PageIcon: string := "📃"
  const ChartIcon: string := "📊"
  const SlidesIcon: string := "📽️"

  const ImageSuffixes: seq<string> := [".jpg", ".jpeg", ".png", ".gif", ".bmp"]
  const VideoSuffixes: seq<string> := [".mp4", ".avi", ".mov", ".mkv"]
  const AudioSuffixes: seq<string> := [".mp3", ".wav", ".flac"]
  const ArchiveSuffixes: seq<string> := [".zip", ".rar", ".7z", ".tar", ".gz"]
  const CodeSuffixes: seq<string> := [".py", ".java", ".cpp", ".js", ".html", ".css"]
  const PdfSuffixes: seq<string> := [".pdf"]
  const WordSuffixes: seq<string> := [".doc", ".docx"]
  const SheetSuffixes: seq<string> := [".xls", ".xlsx"]
  const SlideSuffixes: seq<string> := [".ppt", ".pptx"]

  /** Python's `name.endswith(suffixes)` with a tuple of suffixes. */
  predicate EndsWithAny(name: string, suffixes: seq<string>) {
    |suffixes| > 0 && (EndsWith(name, suffixes[0]) || EndsWithAny(name, suffixes[1..]))
  }

  /** The icon chain of the renderer, in its order; anything unmatched gets the generic icon. */
  function Icon(name: string): string {
    if EndsWithAny(name, ImageSuffixes) then PictureIcon
    else if EndsWithAny(name, VideoSuffixes) then FilmIcon
    else if EndsWithAny(name, AudioSuffixes) then MusicIcon
    else if EndsWithAny(name, ArchiveSuffixes) then PackageIcon
    else if EndsWithAny(name, CodeSuffixes) then NoteIcon
    else if EndsWithAny(name, PdfSuffixes) then DocumentIcon
    else if EndsWithAny(name, WordSuffixes) then PageIcon
    else if EndsWithAny(name, SheetSuffixes) then ChartIcon
    else if EndsWithAny(name, SlideSuffixes) then SlidesIcon
    else GenericIcon
  }

  datatype IconClass = IconClass(suffixes: seq<string>, icon: string)

  /** The classes in priority order, as a table. */
  const IconClasses: seq<IconClass> := [
    IconClass(ImageSuffixes, PictureIcon),
    IconClass(VideoSuffixes, FilmIcon),
    IconClass(AudioSuffixes, MusicIcon),
    IconClass(ArchiveSuffixes, PackageIcon),
    IconClass(CodeSuffixes, NoteIcon),
    IconClass(PdfSuffixes, DocumentIcon),
    IconClass(WordSuffixes, PageIcon),
    IconClass(SheetSuffixes, ChartIcon),
    IconClass(SlideSuffixes, SlidesIcon)
  ]

  predicate InClass(name: string, k: nat)
    requires k < |IconClasses|
  {
    EndsWithAny(name, IconClasses[k].suffixes)
  }

  lemma EndsWithAnyMeaning(name: string, suffixes: seq<string>)
    ensures EndsWithAny(name, suffixes) <==> exists i :: 0 <= i < |suffixes| && EndsWith(name, suffixes[i])
  {
    if |suffixes| > 0 {
      EndsWithAnyMeaning(name, suffixes[1..]);
      assert forall i :: 0 < i < |suffixes| ==> suffixes[i] == suffixes[1..][i - 1];
    }
  }

  /** First match wins: the icon is that of the earliest class with a matching suffix. */
  lemma IconIsFirstMatchingClass(name: string, k: nat)
    requires k < |IconClasses| && InClass(name, k)
    requires forall j :: 0 <= j < k ==> !InClass(name, j)
    ensures Icon(name) == IconClasses[k].icon
  {
    assert k >= 1 ==> !InClass(name, 0);
    assert k >= 2 ==> !InClass(name, 1);
    assert k >= 3 ==> !InClass(name, 2);
    assert k >= 4 ==> !InClass(name, 3);
    assert k >= 5 ==> !InClass(name, 4);
    assert k >= 6 ==> !InClass(name, 5);
    assert k >= 7 ==> !InClass(name, 6);
    assert k >= 8 ==> !InClass(name, 7);
  }

  /** The generic icon is given exactly to names that no class matches. */
  lemma GenericIconIffNoClass(name: string)
    ensures Icon(name) == GenericIcon <==> forall k :: 0 <= k < |IconClasses| ==> !InClass(name, k)
  {
    if Icon(name) == GenericIcon {
      forall k | 0 <= k < |IconClasses|
        ensures !InClass(name, k)
      {
        assert IconClasses[k].suffixes == [ImageSuffixes, VideoSuffixes, AudioSuffixes, ArchiveSuffixes,
          CodeSuffixes, PdfSuffixes, WordSuffixes, SheetSuffixes, SlideSuffixes][k];
      }
    } else {
      assert !(forall k :: 0 <= k < |IconClasses| ==> !InClass(name, k)) by {
        if InClass(name, 0) {} else if InClass(name, 1) {} else if InClass(name, 2) {}
        else if InClass(name, 3) {} else if InClass(name, 4) {} else if InClass(name, 5) {}
        else if InClass(name, 6) {} else if InClass(name, 7) {} else {
          assert InClass(name, 8);
        }
      }
    }
  }

  /** A name whose last character ends none of the suffixes matches none of them. */
  lemma {:induction false} NoSuffixByLastChar(name: string, suffixes: seq<string>)
    requires |name| > 0
    requires forall i :: 0 <= i < |suffixes| ==> |suffixes[i]| > 0 && suffixes[i][|suffixes[i]| - 1] != name[|name| - 1]
    ensures !EndsWithAny(name, suffixes)
    decreases |suffixes|
  {
    if |suffixes| > 0 {
      var x := suffixes[0];
      if |x| <= |name| {
        assert name[|name| - |x|..][|x| - 1] == name[|name| - 1];
      }
      NoSuffixByLastChar(name, suffixes[1..]);
    }
  }

  predicate LowerOrDigit(c: char) {
    'a' <= c <= 'z' || '0' <= c <= '9'
  }

  /** Every suffix of the chain is non-empty and ends in a lower-case letter or a digit. */
  predicate EndsLowerOrDigit(suffixes: seq<string>) {
    forall i :: 0 <= i < |suffixes| ==> |suffixes[i]| > 0 && LowerOrDigit(suffixes[i][|suffixes[i]| - 1])
  }

  lemma {:induction false} NoSuffixForOtherLastChar(name: string, suffixes: seq<string>)
    requires |name| > 0 && !LowerOrDigit(name[|name| - 1])
    requires EndsLowerOrDigit(suffixes)
    ensures !EndsWithAny(name, suffixes)
    decreases |suffixes|
  {
    if |suffixes| > 0 {
      var x := suffixes[0];
      if |x| <= |name| {
        assert name[|name| - |x|..][|x| - 1] == name[|name| - 1];
      }
      NoSuffixForOtherLastChar(name, suffixes[1..]);
    }
  }

  lemma ClassSuffixesEndLowerOrDigit()
    ensures EndsLowerOrDigit(ImageSuffixes) && EndsLowerOrDigit(VideoSuffixes) && EndsLowerOrDigit(AudioSuffixes)
    ensures EndsLowerOrDigit(ArchiveSuffixes) && EndsLowerOrDigit(CodeSuffixes) && EndsLowerOrDigit(PdfSuffixes)
    ensures EndsLowerOrDigit(WordSuffixes) && EndsLowerOrDigit(SheetSuffixes) && EndsLowerOrDigit(SlideSuffixes)
  {
  }

  /** A name ending in anything but a lower-case letter or a digit gets the generic icon. */
  lemma OtherLastCharIsGeneric(name: string)
    requires |name| > 0 && !LowerOrDigit(name[|name| - 1])
    ensures Icon(name) == GenericIcon
  {
    ClassSuffixesEndLowerOrDigit();
    NoSuffixForOtherLastChar(name, ImageSuffixes);
    NoSuffixForOtherLastChar(name, VideoSuffixes);
    NoSuffixForOtherLastChar(name, AudioSuffixes);
    NoSuffixForOtherLastChar(name, ArchiveSuffixes);
    NoSuffixForOtherLastChar(name, CodeSuffixes);
    NoSuffixForOtherLastChar(name, PdfSuffixes);
    NoSuffixForOtherLastChar(name, WordSuffixes);
    NoSuffixForOtherLastChar(name, SheetSuffixes);
    NoSuffixForOtherLastChar(name, SlideSuffixes);
  }

  /** Upper-case extensions are not recognised. */
  lemma UpperCaseIsGeneric()
    ensures Icon("x.PY") == GenericIcon
  {
    OtherLastCharIsGeneric("x.PY");
  }

  /** Only the final extension counts: a compressed tarball is an archive by its ".gz". */
  lemma TarballIsArchive()
    ensures Icon("x.tar.gz") == PackageIcon
  {
    var n := "x.tar.gz";
    NoSuffixByLastChar(n, ImageSuffixes);
    NoSuffixByLastChar(n, VideoSuffixes);
    NoSuffixByLastChar(n, AudioSuffixes);
    assert EndsWith(n, ".gz") by {
      assert n[|n| - 3..] == ".gz";
    }
    assert EndsWithAny(n, ArchiveSuffixes[4..]);
  }
}

=== FILE: render.dfy ===
/**
 The tree renderer (`write_structure`): a depth-first, name-ordered walk that
 turns each shown entry into one row `prefix + connector + entry text`.
 */
module Render {
  import opened Wrappers
  import opened SizeFormat
  import opened Icons
  import opened FileTree

  /**
   The options fixed before the walk starts. `globMatch(name, pattern)` stands for
   `fnmatch.fnmatch`; an absent or empty filter pattern filters nothing.
   */
  datatype Config = Config(
    maxDepth: Option<int>,
    showSize: bool,
    showTime: bool,
    onlyFolders: bool,
    filter: Option<string>,
    globMatch: (string, string) -> bool)

  /** How an entry is judged to be the last of its directory. */
  datatype LastRule =
    | ByListing  // last in the full sorted listing, hidden files included
    | ByShown    // last among the entries actually shown

  const MidConnector: string := "├── "
  const LastConnector: string := "└── "
  const MidIndent: string := "│   "
  const LastIndent: string := "    "

  const DirSizeFailed: string := " (大小计算失败)"
  const FileSizeFailed: string := " (大小获取失败)"
  const TimeFailed: string := " [时间获取失败]"

  /** What follows the connector on a row. */
  datatype Entry =
    | DirEntry(name: string, sizeInfo: string, timeInfo: string)
    | FileEntry(icon: string, name: string, sizeInfo: string, timeInfo: string)
    | ErrorEntry(error: ListError)

  datatype Row = Row(prefix: string, connector: string, entry: Entry)

  function ErrorMarker(e: ListError): string {
    match e
    case PermissionDenied => "[无法访问: 权限不足]"
    case OtherError(message) => "[错误: " + message + "]"
  }

  function EntryText(e: Entry): string {
    match e
    case DirEntry(name, sizeInfo, timeInfo) => "📁 " + name + sizeInfo + timeInfo
    case FileEntry(icon, name, sizeInfo, timeInfo) => icon + " " + name + sizeInfo + timeInfo
    case ErrorEntry(error) => ErrorMarker(error)
  }

  /** The text of one output line, without its line break. */
  function RowText(r: Row): string {
    r.prefix + r.connector + EntryText(r.entry)
  }

  function TimeInfo(cfg: Config, modified: Option<string>): string {
    if !cfg.showTime then ""
    else match modified
      case Some(t) => " [修改: " + t + "]"
      case None => TimeFailed
  }

  function DirSizeInfo(cfg: Config, l: Listing): string {
    if !cfg.showSize then ""
    else match DirTotal(l)
      case Some(n) => " (" + SizeStr(n) + ")"
      case None => DirSizeFailed
  }

  function FileSizeInfo(cfg: Config, size: Option<nat>): string {
    if !cfg.showSize then ""
    else match size
      case Some(n) => " (" + SizeStr(n) + ")"
      case None => FileSizeFailed
  }

  predicate FilterActive(cfg: Config) {
    cfg.filter.Some? && cfg.filter.value != ""
  }

  /** Whether a file of this name gets a row: never in folders-only mode, otherwise when it passes the filter. */
  predicate FileShown(name: string, cfg: Config) {
    !cfg.onlyFolders && (!FilterActive(cfg) || cfg.globMatch(name, cfg.filter.value))
  }

  /** Directories are always shown; the options only ever hide files. */
  predicate Shown(n: Node, cfg: Config) {
    n.Dir? || FileShown(n.name, cfg)
  }

  function ShownOnly(s: seq<Node>, cfg: Config): (r: seq<Node>)
    ensures forall x :: x in r ==> x in s && Shown(x, cfg)
  {
    if |s| == 0 then []
    else (if Shown(s[0], cfg) then [s[0]] else []) + ShownOnly(s[1..], cfg)
  }

  /** The entries a directory's loop runs over, in order. */
  function Arrange(cs: seq<Node>, cfg: Config, rule: LastRule): (r: seq<Node>)
    ensures forall x :: x in r ==> x in cs
  {
    var sorted := SortByName(cs);
    forall x | x in sorted
      ensures x in cs
    {
      SortedMembers(cs, x);
    }
    if rule == ByListing then sorted else ShownOnly(sorted, cfg)
  }

  predicate BeyondDepth(cfg: Config, depth: int) {
    cfg.maxDepth.Some? && depth > cfg.maxDepth.value
  }

  /**
   One call of `write_structure` on a directory whose listing outcome is `l`:
   nothing beyond the depth limit, one error row when the listing fails,
   otherwise the rows of its entries in name order.
   */
  function WalkDir(l: Listing, prefix: string, depth: int, cfg: Config, rule: LastRule): seq<Row>
    decreases l, 1
  {
    if BeyondDepth(cfg, depth) then []
    else match l
      case Failed(e) => [Row(prefix, MidConnector, ErrorEntry(e))]
      case Listed(cs) => Emit(l, Arrange(cs, cfg, rule), 0, prefix, depth, cfg, rule)
  }

  /** The loop over `items[i..]`; each entry's block is followed by the rest, whatever it produced. */
  function Emit(parent: Listing, items: seq<Node>, i: nat, prefix: string, depth: int, cfg: Config, rule: LastRule): seq<Row>
    requires parent.Listed? && i <= |items|
    requires forall x :: x in items ==> x in parent.children
    decreases parent, 0, |items| - i
  {
    if i == |items| then []
    else Block(parent, items, i, prefix, depth, cfg, rule) + Emit(parent, items, i + 1, prefix, depth, cfg, rule)
  }

  function Connector(isLast: bool): string {
    if isLast then LastConnector else MidConnector
  }

  function Indent(isLast: bool): string {
    if isLast then LastIndent else MidIndent
  }

  /** The rows of `items[i]`: a directory's row followed by its walk one level down, or a shown file's row. */
  function Block(parent: Listing, items: seq<Node>, i: nat, prefix: string, depth: int, cfg: Config, rule: LastRule): seq<Row>
    requires parent.Listed? && i < |items|
    requires forall x :: x in items ==> x in parent.children
    decreases parent, 0, 0
  {
    var item := items[i];
    var isLast := i == |items| - 1;
    match item
    case Dir(name, sub, modified) =>
      assert item in parent.children;
      [Row(prefix, Connector(isLast), DirEntry(name, DirSizeInfo(cfg, sub), TimeInfo(cfg, modified)))]
        + WalkDir(sub, prefix + Indent(isLast), depth + 1, cfg, rule)
    case File(name, size, modified) =>
      if FileShown(name, cfg) then
        [Row(prefix, Connector(isLast), FileEntry(Icon(name), name, FileSizeInfo(cfg, size), TimeInfo(cfg, modified)))]
      else []
  }

  /** One line per row, in order. */
  function Texts(rows: seq<Row>): (lines: seq<string>)
    ensures |lines| == |rows|
    ensures forall k :: 0 <= k < |rows| ==> lines[k] == RowText(rows[k])
  {
    seq(|rows|, k requires 0 <= k < |rows| => RowText(rows[k]))
  }

  /** The report body as written: the walk from the root with an empty prefix at depth 0. */
  function Body(root: Listing, cfg: Config): seq<string> {
    Texts(WalkDir(root, "", 0, cfg, ByListing))
  }

  /** The report body with the last-sibling connector decided among the shown entries. */
  function CorrectedBody(root: Listing, cfg: Config): seq<string> {
    Texts(WalkDir(root, "", 0, cfg, ByShown))
  }
}

=== FILE: render_props.dfy ===
/**
 Properties of the tree renderer: nesting of prefixes, the depth cutoff, the
 order and connectors of a directory's own rows, filtering, error rows, and
 agreement with the entry counter.
 */
module RenderProps {
  import opened Wrappers
  import opened SizeFormat
  import opened Text
  import opened FileTree
  import opened Render

  // ------------------------------------------------------------ nesting and depth

  /**
   Every row starts with `prefix`, grows it by whole four-character segments, and
   under a depth limit `k` grows it by at most one segment per level left.
   */
  predicate Nested(rows: seq<Row>, prefix: string, depth: int, cfg: Config) {
    forall r :: r in rows ==>
      && prefix <= r.prefix
      && (|r.prefix| - |prefix|) % 4 == 0
      && (cfg.maxDepth.Some? && depth <= cfg.maxDepth.value ==> |r.prefix| <= |prefix| + 4 * (cfg.maxDepth.value - depth))
  }

  lemma NestedDeeper(rows: seq<Row>, prefix: string, seg: string, depth: int, cfg: Config)
    requires |seg| == 4
    requires Nested(rows, prefix + seg, depth + 1, cfg)
    requires BeyondDepth(cfg, depth + 1) ==> rows == []
    ensures Nested(rows, prefix, depth, cfg)
  {
    forall r | r in rows
      ensures prefix <= r.prefix
    {
      assert (prefix + seg) <= r.prefix;
      assert r.prefix[..|prefix|] == (prefix + seg)[..|prefix|];
    }
  }

  lemma {:induction false} WalkNested(l: Listing, prefix: string, depth: int, cfg: Config, rule: LastRule)
    ensures BeyondDepth(cfg, depth) ==> WalkDir(l, prefix, depth, cfg, rule) == []
    ensures Nested(WalkDir(l, prefix, depth, cfg, rule), prefix, depth, cfg)
    decreases l, 1
  {
    if !BeyondDepth(cfg, depth) {
      match l
      case Failed(e) =>
      case Listed(cs) => EmitNested(l, Arrange(cs, cfg, rule), 0, prefix, depth, cfg, rule);
    }
  }

  lemma {:induction false} EmitNested(parent: Listing, items: seq<Node>, i: nat, prefix: string, depth: int, cfg: Config, rule: LastRule)
    requires parent.Listed? && i <= |items|
    requires forall x :: x in items ==> x in parent.children
    requires !BeyondDepth(cfg, depth)
    ensures Nested(Emit(parent, items, i, prefix, depth, cfg, rule), prefix, depth, cfg)
    decreases parent, 0, |items| - i
  {
    if i < |items| {
      BlockNested(parent, items, i, prefix, depth, cfg, rule);
      EmitNested(parent, items, i + 1, prefix, depth, cfg, rule);
    }
  }

  lemma {:induction false} BlockNested(parent: Listing, items: seq<Node>, i: nat, prefix: string, depth: int, cfg: Config, rule: LastRule)
    requires parent.Listed? && i < |items|
    requires forall x :: x in items ==> x in parent.children
    requires !BeyondDepth(cfg, depth)
    ensures Nested(Block(parent, items, i, prefix, depth, cfg, rule), prefix, depth, cfg)
    decreases parent, 0, 0
  {
    var item := items[i];
    if item.Dir? {
      assert item in parent.children;
      var seg := Indent(i == |items| - 1);
      WalkNested(item.listing, prefix + seg, depth + 1, cfg, rule);
      NestedDeeper(WalkDir(item.listing, prefix + seg, depth + 1, cfg, rule), prefix, seg, depth, cfg);
    }
  }

  /** The nesting level of a row: 1 for the root's own entries, one more per four-character segment. */
  function Level(r: Row): int {
    |r.prefix| / 4 + 1
  }

  /**
   Depth cutoff: with `max_depth = k` the walk from the root emits nothing below
   level `k + 1`, every row's prefix being made of whole segments.
   */
  lemma DepthLimitBoundsLevels(root: Listing, cfg: Config, rule: LastRule, k: int)
    requires cfg.maxDepth == Some(k)
    ensures forall r :: r in WalkDir(root, "", 0, cfg, rule) ==> |r.prefix| % 4 == 0 && Level(r) <= k + 1
    ensures k < 0 ==> WalkDir(root, "", 0, cfg, rule) == []
  {
    WalkNested(root, "", 0, cfg, rule);
  }

  // ------------------------------------------------------------ a directory's own rows

  /** The rows whose prefix has length `n`: at the top of a walk with an `n`-character prefix, the directory's own entries. */
  function TopRows(rows: seq<Row>, n: nat): seq<Row> {
    if |rows| == 0 then []
    else (if |rows[0].prefix| == n then [rows[0]] else []) + TopRows(rows[1..], n)
  }

  lemma {:induction false} TopRowsAppend(a: seq<Row>, b: seq<Row>, n: nat)
    ensures TopRows(a + b, n) == TopRows(a, n) + TopRows(b, n)
    decreases |a|
  {
    if |a| > 0 {
      assert (a + b)[1..] == a[1..] + b;
      TopRowsAppend(a[1..], b, n);
    } else {
      assert a + b == b;
    }
  }

  lemma {:induction false} TopRowsNone(rows: seq<Row>, n: nat)
    requires forall x :: x in rows ==> |x.prefix| != n
    ensures TopRows(rows, n) == []
    decreases |rows|
  {
    if |rows| > 0 {
      TopRowsNone(rows[1..], n);
    }
  }

  function EntryName(e: Entry): string {
    match e
    case DirEntry(name, _, _) => name
    case FileEntry(_, name, _, _) => name
    case ErrorEntry(_) => ""
  }

  /** The (name, connector) pair of each row. */
  function Heads(rows: seq<Row>): (h: seq<(string, string)>)
    ensures |h| == |rows|
  {
    if |rows| == 0 then [] else [(EntryName(rows[0].entry), rows[0].connector)] + Heads(rows[1..])
  }

  lemma {:induction false} HeadsPointwise(rows: seq<Row>)
    ensures forall j :: 0 <= j < |rows| ==> Heads(rows)[j] == (EntryName(rows[j].entry), rows[j].connector)
    decreases |rows|
  {
    if |rows| > 0 {
      HeadsPointwise(rows[1..]);
    }
  }

  lemma {:induction false} HeadsAppend(a: seq<Row>, b: seq<Row>)
    ensures Heads(a + b) == Heads(a) + Heads(b)
    decreases |a|
  {
    if |a| > 0 {
      assert (a + b)[1..] == a[1..] + b;
      HeadsAppend(a[1..], b);
    } else {
      assert a + b == b;
    }
  }

  function ExpectedHead(items: seq<Node>, i: nat, cfg: Config): seq<(string, string)>
    requires i < |items|
  {
    if Shown(items[i], cfg) then [(items[i].name, Connector(i == |items| - 1))] else []
  }

  /** The (name, connector) pairs the loop over `items[i..]` is meant to put at the top level. */
  function ExpectedHeads(items: seq<Node>, i: nat, cfg: Config): seq<(string, string)>
    requires i <= |items|
    decreases |items| - i
  {
    if i == |items| then []
    else ExpectedHead(items, i, cfg) + ExpectedHeads(items, i + 1, cfg)
  }

  lemma BlockHeads(parent: Listing, items: seq<Node>, i: nat, prefix: string, depth: int, cfg: Config, rule: LastRule)
    requires parent.Listed? && i < |items|
    requires forall x :: x in items ==> x in parent.children
    requires !BeyondDepth(cfg, depth)
    ensures Heads(TopRows(Block(parent, items, i, prefix, depth, cfg, rule), |prefix|)) == ExpectedHead(items, i, cfg)
  {
    var item := items[i];
    var block := Block(parent, items, i, prefix, depth, cfg, rule);
    if item.Dir? {
      assert item in parent.children;
      var isLast := i == |items| - 1;
      var below := WalkDir(item.listing, prefix + Indent(isLast), depth + 1, cfg, rule);
      var own := Row(prefix, Connector(isLast), DirEntry(item.name, DirSizeInfo(cfg, item.listing), TimeInfo(cfg, item.modified)));
      assert block == [own] + below;
      WalkNested(item.listing, prefix + Indent(isLast), depth + 1, cfg, rule);
      TopRowsNone(below, |prefix|);
      TopRowsAppend([own], below, |prefix|);
    }
  }

  lemma HeadsOfTopConcat(a: seq<Row>, b: seq<Row>, n: nat)
    ensures Heads(TopRows(a + b, n)) == Heads(TopRows(a, n)) + Heads(TopRows(b, n))
  {
    TopRowsAppend(a, b, n);
    HeadsAppend(TopRows(a, n), TopRows(b, n));
  }

  lemma EmitStep(parent: Listing, items: seq<Node>, i: nat, prefix: string, depth: int, cfg: Config, rule: LastRule)
    requires parent.Listed? && i < |items|
    requires forall x :: x in items ==> x in parent.children
    ensures Emit(parent, items, i, prefix, depth, cfg, rule)
      == Block(parent, items, i, prefix, depth, cfg, rule) + Emit(parent, items, i + 1, prefix, depth, cfg, rule)
  {
  }

  /** One step of the loop: the heads of item `i`'s block come before those of the rest. */
  lemma EmitHeadsStep(parent: Listing, items: seq<Node>, i: nat, prefix: string, depth: int, cfg: Config, rule: LastRule)
    requires parent.Listed? && i < |items|
    requires forall x :: x in items ==> x in parent.children
    requires !BeyondDepth(cfg, depth)
    requires Heads(TopRows(Emit(parent, items, i + 1, prefix, depth, cfg, rule), |prefix|)) == ExpectedHeads(items, i + 1, cfg)
    ensures Heads(TopRows(Emit(parent, items, i, prefix, depth, cfg, rule), |prefix|)) == ExpectedHeads(items, i, cfg)
  {
    var n := |prefix|;
    var b := Block(parent, items, i, prefix, depth, cfg, rule);
    var r := Emit(parent, items, i + 1, prefix, depth, cfg, rule);
    EmitStep(parent, items, i, prefix, depth, cfg, rule);
    BlockHeads(parent, items, i, prefix, depth, cfg, rule);
    HeadsOfTopConcat(b, r, n);
    assert ExpectedHeads(items, i, cfg) == ExpectedHead(items, i, cfg) + ExpectedHeads(items, i + 1, cfg);
  }

  lemma {:induction false} EmitHeads(parent: Listing, items: seq<Node>, i: nat, prefix: string, depth: int, cfg: Config, rule: LastRule)
    requires parent.Listed? && i <= |items|
    requires forall x :: x in items ==> x in parent.children
    requires !BeyondDepth(cfg, depth)
    ensures Heads(TopRows(Emit(parent, items, i, prefix, depth, cfg, rule), |prefix|)) == ExpectedHeads(items, i, cfg)
    decreases |items| - i
  {
    if i < |items| {
      EmitHeads(parent, items, i + 1, prefix, depth, cfg, rule);
      EmitHeadsStep(parent, items, i, prefix, depth, cfg, rule);
    }
  }

  function HeadNames(h: seq<(string, string)>): seq<string> {
    if |h| == 0 then [] else [h[0].0] + HeadNames(h[1..])
  }

  function NodeNames(s: seq<Node>): seq<string> {
    if |s| == 0 then [] else [s[0].name] + NodeNames(s[1..])
  }

  lemma {:induction false} HeadNamesAppend(a: seq<(string, string)>, b: seq<(string, string)>)
    ensures HeadNames(a + b) == HeadNames(a) + HeadNames(b)
    decreases |a|
  {
    if |a| > 0 {
      assert (a + b)[1..] == a[1..] + b;
      HeadNamesAppend(a[1..], b);
    } else {
      assert a + b == b;
    }
  }

  lemma {:induction false} ExpectedNames(items: seq<Node>, i: nat, cfg: Config)
    requires i <= |items|
    ensures HeadNames(ExpectedHeads(items, i, cfg)) == NodeNames(ShownOnly(items[i..], cfg))
    decreases |items| - i
  {
    if i < |items| {
      ExpectedNames(items, i + 1, cfg);
      assert items[i..][1..] == items[i + 1..];
      HeadNamesAppend(ExpectedHead(items, i, cfg), ExpectedHeads(items, i + 1, cfg));
      if Shown(items[i], cfg) {
        assert ShownOnly(items[i..], cfg) == [items[i]] + ShownOnly(items[i + 1..], cfg);
      } else {
        assert ShownOnly(items[i..], cfg) == ShownOnly(items[i + 1..], cfg);
      }
    }
  }

  /**
   Connectors of the top-level rows: every row but the last has the middle
   connector, and the last row has the closing one exactly when the last item of
   the loop is itself shown.
   */
  lemma {:induction false} ExpectedConnectors(items: seq<Node>, i: nat, cfg: Config)
    requires i <= |items|
    ensures var h := ExpectedHeads(items, i, cfg);
      && (forall j :: 0 <= j < |h| - 1 ==> h[j].1 == MidConnector)
      && (|h| > 0 ==> (h[|h| - 1].1 == LastConnector <==> Shown(items[|items| - 1], cfg)))
      && (|h| == 0 && i < |items| ==> !Shown(items[|items| - 1], cfg))
    decreases |items| - i
  {
    if i < |items| {
      ExpectedConnectors(items, i + 1, cfg);
    }
  }

  lemma {:induction false} ShownOnlyIdempotent(s: seq<Node>, cfg: Config)
    ensures ShownOnly(ShownOnly(s, cfg), cfg) == ShownOnly(s, cfg)
    decreases |s|
  {
    if |s| > 0 {
      ShownOnlyIdempotent(s[1..], cfg);
      var rest := ShownOnly(s[1..], cfg);
      if Shown(s[0], cfg) {
        var once := [s[0]] + rest;
        assert ShownOnly(s, cfg) == once;
        assert once[0] == s[0] && once[1..] == rest;
        assert ShownOnly(once, cfg) == [s[0]] + ShownOnly(rest, cfg);
      } else {
        assert ShownOnly(s, cfg) == rest;
      }
    }
  }

  /**
   A directory's own rows name exactly its shown entries (every sub-directory,
   the files the options let through), in sorted name order, whichever rule
   decides the connectors.
   */
  lemma OwnRowsFollowSortedListing(cs: seq<Node>, prefix: string, depth: int, cfg: Config, rule: LastRule)
    requires !BeyondDepth(cfg, depth)
    ensures HeadNames(Heads(TopRows(WalkDir(Listed(cs), prefix, depth, cfg, rule), |prefix|)))
      == NodeNames(ShownOnly(SortByName(cs), cfg))
  {
    var items := Arrange(cs, cfg, rule);
    EmitHeads(Listed(cs), items, 0, prefix, depth, cfg, rule);
    ExpectedNames(items, 0, cfg);
    assert items[0..] == items;
    if rule == ByShown {
      ShownOnlyIdempotent(SortByName(cs), cfg);
    }
  }

  /**
   The renderer as written: the connector is decided by position in the full
   sorted listing, so the last shown row closes the directory with `└── ` exactly
   when the last entry of the listing is itself shown; otherwise it keeps `├── `.
   */
  lemma ListingRuleConnectors(cs: seq<Node>, prefix: string, depth: int, cfg: Config)
    requires !BeyondDepth(cfg, depth)
    ensures var top := TopRows(WalkDir(Listed(cs), prefix, depth, cfg, ByListing), |prefix|);
      && (forall j :: 0 <= j < |top| - 1 ==> top[j].connector == MidConnector)
      && (|top| > 0 ==> |cs| > 0 && (top[|top| - 1].connector == LastConnector <==> Shown(SortByName(cs)[|cs| - 1], cfg)))
  {
    var items := Arrange(cs, cfg, ByListing);
    EmitHeads(Listed(cs), items, 0, prefix, depth, cfg, ByListing);
    ExpectedConnectors(items, 0, cfg);
    HeadsPointwise(TopRows(WalkDir(Listed(cs), prefix, depth, cfg, ByListing), |prefix|));
  }

  /** The corrected rule: the last shown row, and only it, closes the directory with `└── `. */
  lemma ShownRuleConnectors(cs: seq<Node>, prefix: string, depth: int, cfg: Config)
    requires !BeyondDepth(cfg, depth)
    ensures var top := TopRows(WalkDir(Listed(cs), prefix, depth, cfg, ByShown), |prefix|);
      && (forall j :: 0 <= j < |top| - 1 ==> top[j].connector == MidConnector)
      && (|top| > 0 ==> top[|top| - 1].connector == LastConnector)
  {
    var items := Arrange(cs, cfg, ByShown);
    EmitHeads(Listed(cs), items, 0, prefix, depth, cfg, ByShown);
    ExpectedConnectors(items, 0, cfg);
    HeadsPointwise(TopRows(WalkDir(Listed(cs), prefix, depth, cfg, ByShown), |prefix|));
    if |items| > 0 {
      assert items[|items| - 1] in items;
    }
  }

  lemma {:induction false} TopRowsAll(rows: seq<Row>, n: nat)
    requires forall x :: x in rows ==> |x.prefix| == n
    ensures TopRows(rows, n) == rows
    decreases |rows|
  {
    if |rows| > 0 {
      TopRowsAll(rows[1..], n);
    }
  }

  /**
   At the last level the depth limit allows, a directory's walk emits its own
   shown entries in name order and nothing beneath them.
   */
  lemma LastAllowedLevelHasNoDescendants(cs: seq<Node>, prefix: string, k: int, cfg: Config, rule: LastRule)
    requires cfg.maxDepth == Some(k)
    ensures forall r :: r in WalkDir(Listed(cs), prefix, k, cfg, rule) ==> r.prefix == prefix
    ensures HeadNames(Heads(WalkDir(Listed(cs), prefix, k, cfg, rule))) == NodeNames(ShownOnly(SortByName(cs), cfg))
  {
    var rows := WalkDir(Listed(cs), prefix, k, cfg, rule);
    WalkNested(Listed(cs), prefix, k, cfg, rule);
    forall r | r in rows
      ensures r.prefix == prefix
    {
      assert prefix <= r.prefix;
    }
    TopRowsAll(rows, |prefix|);
    OwnRowsFollowSortedListing(cs, prefix, k, cfg, rule);
  }

  // ------------------------------------------------------------ pre-order and errors

  /**
   Pre-order: a directory's row comes first in its block, with its connector, and
   every row after it lies beneath it, its prefix extended by the indent that
   the directory's last-sibling status selects.
   */
  lemma DirectoryRowPrecedesItsContents(parent: Listing, items: seq<Node>, i: nat, prefix: string, depth: int, cfg: Config, rule: LastRule)
    requires parent.Listed? && i < |items|
    requires forall x :: x in items ==> x in parent.children
    requires items[i].Dir?
    ensures var b := Block(parent, items, i, prefix, depth, cfg, rule);
      var isLast := i == |items| - 1;
      && |b| >= 1
      && b[0].prefix == prefix && b[0].connector == Connector(isLast)
      && b[0].entry.DirEntry? && b[0].entry.name == items[i].name
      && forall r :: r in b[1..] ==> prefix + Indent(isLast) <= r.prefix
  {
    var item := items[i];
    assert item in parent.children;
    var isLast := i == |items| - 1;
    WalkNested(item.listing, prefix + Indent(isLast), depth + 1, cfg, rule);
    var b := Block(parent, items, i, prefix, depth, cfg, rule);
    assert b[1..] == WalkDir(item.listing, prefix + Indent(isLast), depth + 1, cfg, rule);
  }

  /** A directory whose listing fails yields exactly one line, the error marker under its own prefix. */
  lemma UnlistableDirectoryLine(e: ListError, prefix: string, depth: int, cfg: Config, rule: LastRule)
    requires !BeyondDepth(cfg, depth)
    ensures Texts(WalkDir(Failed(e), prefix, depth, cfg, rule)) == [prefix + MidConnector + ErrorMarker(e)]
  {
  }

  /**
   An unreadable sub-directory contributes its own row and the error line beneath
   it, and the loop goes on with the next entry.
   */
  lemma UnlistableChildBlock(parent: Listing, items: seq<Node>, i: nat, prefix: string, depth: int, cfg: Config, rule: LastRule)
    requires parent.Listed? && i < |items|
    requires forall x :: x in items ==> x in parent.children
    requires items[i].Dir? && items[i].listing.Failed?
    requires !BeyondDepth(cfg, depth + 1)
    ensures var isLast := i == |items| - 1;
      Emit(parent, items, i, prefix, depth, cfg, rule)
      == [Row(prefix, Connector(isLast), DirEntry(items[i].name, DirSizeInfo(cfg, items[i].listing), TimeInfo(cfg, items[i].modified))),
          Row(prefix + Indent(isLast), MidConnector, ErrorEntry(items[i].listing.error))]
        + Emit(parent, items, i + 1, prefix, depth, cfg, rule)
  {
    var item := items[i];
    assert item in parent.children;
    var isLast := i == |items| - 1;
    var own := Row(prefix, Connector(isLast), DirEntry(item.name, DirSizeInfo(cfg, item.listing), TimeInfo(cfg, item.modified)));
    var err := Row(prefix + Indent(isLast), MidConnector, ErrorEntry(item.listing.error));
    assert WalkDir(item.listing, prefix + Indent(isLast), depth + 1, cfg, rule) == [err];
    assert Block(parent, items, i, prefix, depth, cfg, rule) == [own, err];
  }

  /** An unreadable directory is reported with size 0 B: the size walk skips what it cannot list. */
  lemma UnlistableDirectorySizeIsZero(e: ListError, cfg: Config)
    requires cfg.showSize
    ensures DirSizeInfo(cfg, Failed(e)) == " (0 B)"
  {
    BytesBelowKiB();
  }

  /**
   A directory's size annotation is the size of all files at any depth beneath
   it, or the failure note when one of those sizes cannot be read.
   */
  lemma DirectorySizeIsSumOfFiles(l: Listing, cfg: Config)
    requires cfg.showSize
    ensures DirSizeInfo(cfg, l) ==
      if AllSizesKnown(Reachable(l)) then " (" + SizeStr(FileSizeSum(Reachable(l))) + ")" else DirSizeFailed
  {
    DirTotalIsSumOfFiles(l);
  }

  // ------------------------------------------------------------ filtering

  /** The same options without folders-only mode and without a filter. */
  function Unfiltered(cfg: Config): (u: Config)
    ensures forall name :: FileShown(name, u)
  {
    cfg.(onlyFolders := false, filter := None)
  }

  /** Drops the file rows that `cfg` hides; every other row is kept, in order. */
  function KeepShown(rows: seq<Row>, cfg: Config): seq<Row> {
    if |rows| == 0 then []
    else
      (if rows[0].entry.FileEntry? && !FileShown(rows[0].entry.name, cfg) then [] else [rows[0]])
        + KeepShown(rows[1..], cfg)
  }

  function DropFileRows(rows: seq<Row>): seq<Row> {
    if |rows| == 0 then []
    else (if rows[0].entry.FileEntry? then [] else [rows[0]]) + DropFileRows(rows[1..])
  }

  lemma {:induction false} KeepShownAppend(a: seq<Row>, b: seq<Row>, cfg: Config)
    ensures KeepShown(a + b, cfg) == KeepShown(a, cfg) + KeepShown(b, cfg)
    decreases |a|
  {
    if |a| > 0 {
      assert (a + b)[1..] == a[1..] + b;
      KeepShownAppend(a[1..], b, cfg);
    } else {
      assert a + b == b;
    }
  }

  lemma {:induction false} WalkFiltersRows(l: Listing, prefix: string, depth: int, cfg: Config)
    ensures WalkDir(l, prefix, depth, cfg, ByListing) == KeepShown(WalkDir(l, prefix, depth, Unfiltered(cfg), ByListing), cfg)
    decreases l, 1
  {
    if !BeyondDepth(cfg, depth) {
      match l
      case Failed(e) =>
      case Listed(cs) =>
        EmitFiltersRows(l, Arrange(cs, cfg, ByListing), 0, prefix, depth, cfg);
    }
  }

  lemma {:induction false} EmitFiltersRows(parent: Listing, items: seq<Node>, i: nat, prefix: string, depth: int, cfg: Config)
    requires parent.Listed? && i <= |items|
    requires forall x :: x in items ==> x in parent.children
    ensures Emit(parent, items, i, prefix, depth, cfg, ByListing)
      == KeepShown(Emit(parent, items, i, prefix, depth, Unfiltered(cfg), ByListing), cfg)
    decreases parent, 0, |items| - i
  {
    if i < |items| {
      BlockFiltersRows(parent, items, i, prefix, depth, cfg);
      EmitFiltersRows(parent, items, i + 1, prefix, depth, cfg);
      KeepShownAppend(Block(parent, items, i, prefix, depth, Unfiltered(cfg), ByListing),
        Emit(parent, items, i + 1, prefix, depth, Unfiltered(cfg), ByListing), cfg);
    }
  }

  lemma {:induction false} BlockFiltersRows(parent: Listing, items: seq<Node>, i: nat, prefix: string, depth: int, cfg: Config)
    requires parent.Listed? && i < |items|
    requires forall x :: x in items ==> x in parent.children
    ensures Block(parent, items, i, prefix, depth, cfg, ByListing)
      == KeepShown(Block(parent, items, i, prefix, depth, Unfiltered(cfg), ByListing), cfg)
    decreases parent, 0, 0
  {
    var item := items[i];
    if item.Dir? {
      assert item in parent.children;
      var isLast := i == |items| - 1;
      var u := Unfiltered(cfg);
      WalkFiltersRows(item.listing, prefix + Indent(isLast), depth + 1, cfg);
      var own := Row(prefix, Connector(isLast), DirEntry(item.name, DirSizeInfo(cfg, item.listing), TimeInfo(cfg, item.modified)));
      assert Block(parent, items, i, prefix, depth, u, ByListing)
        == [own] + WalkDir(item.listing, prefix + Indent(isLast), depth + 1, u, ByListing);
      KeepShownAppend([own], WalkDir(item.listing, prefix + Indent(isLast), depth + 1, u, ByListing), cfg);
    }
  }

  lemma {:induction false} DropFileRowsAppend(a: seq<Row>, b: seq<Row>)
    ensures DropFileRows(a + b) == DropFileRows(a) + DropFileRows(b)
    decreases |a|
  {
    if |a| > 0 {
      assert (a + b)[1..] == a[1..] + b;
      DropFileRowsAppend(a[1..], b);
    } else {
      assert a + b == b;
    }
  }

  lemma {:induction false} KeepShownKeepsOtherRows(rows: seq<Row>, cfg: Config)
    ensures DropFileRows(KeepShown(rows, cfg)) == DropFileRows(rows)
    ensures cfg.onlyFolders ==> KeepShown(rows, cfg) == DropFileRows(rows)
    decreases |rows|
  {
    if |rows| > 0 {
      KeepShownKeepsOtherRows(rows[1..], cfg);
      var head := if rows[0].entry.FileEntry? && !FileShown(rows[0].entry.name, cfg) then [] else [rows[0]];
      assert KeepShown(rows, cfg) == head + KeepShown(rows[1..], cfg);
      DropFileRowsAppend(head, KeepShown(rows[1..], cfg));
    }
  }

  /**
   Folders-only mode and the filter only ever remove file rows: the walk under any
   options is the unfiltered walk with the hidden files' rows taken out, so
   directory rows, error rows, their connectors and prefixes are unchanged.
   */
  lemma FilteringOnlyRemovesFileRows(root: Listing, cfg: Config)
    ensures WalkDir(root, "", 0, cfg, ByListing) == KeepShown(WalkDir(root, "", 0, Unfiltered(cfg), ByListing), cfg)
    ensures DropFileRows(WalkDir(root, "", 0, cfg, ByListing)) == DropFileRows(WalkDir(root, "", 0, Unfiltered(cfg), ByListing))
    ensures cfg.onlyFolders ==> forall r :: r in WalkDir(root, "", 0, cfg, ByListing) ==> !r.entry.FileEntry?
  {
    var rows := WalkDir(root, "", 0, Unfiltered(cfg), ByListing);
    WalkFiltersRows(root, "", 0, cfg);
    KeepShownKeepsOtherRows(rows, cfg);
    if cfg.onlyFolders {
      NoFileRowsLeft(rows);
    }
  }

  lemma {:induction false} NoFileRowsLeft(rows: seq<Row>)
    ensures forall r :: r in DropFileRows(rows) ==> !r.entry.FileEntry?
    decreases |rows|
  {
    if |rows| > 0 {
      NoFileRowsLeft(rows[1..]);
    }
  }

  // ------------------------------------------------------------ agreement with the counter

  predicate IsUnlistableDir(n: Node) {
    n.Dir? && n.listing.Failed?
  }

  /** Listings that fail within reach of the walk, the walked one included. */
  function FailedListings(l: Listing): nat {
    (if l.Failed? then 1 else 0) + CountIf(Reachable(l), IsUnlistableDir)
  }

  /** The rows an entry accounts for when nothing is hidden or cut off. */
  function NodeWeight(n: Node): nat {
    if n.Dir? then 1 + |Reachable(n.listing)| + FailedListings(n.listing) else 1
  }

  lemma {:induction false} ReachableInWeight(cs: seq<Node>)
    ensures SumOver(cs, NodeWeight) == |ReachableIn(cs)| + CountIf(ReachableIn(cs), IsUnlistableDir)
    decreases |cs|
  {
    if |cs| > 0 {
      var below := if cs[0].Dir? then Reachable(cs[0].listing) else [];
      ReachableInWeight(cs[1..]);
      CountIfAppend([cs[0]] + below, ReachableIn(cs[1..]), IsUnlistableDir);
      CountIfAppend([cs[0]], below, IsUnlistableDir);
    }
  }

  predicate ShowsEverything(cfg: Config) {
    cfg.maxDepth.None? && !cfg.onlyFolders && !FilterActive(cfg)
  }

  lemma {:induction false} WalkLength(l: Listing, prefix: string, depth: int, cfg: Config)
    requires ShowsEverything(cfg)
    ensures |WalkDir(l, prefix, depth, cfg, ByListing)| == |Reachable(l)| + FailedListings(l)
    decreases l, 1
  {
    match l
    case Failed(_) =>
    case Listed(cs) =>
      var items := Arrange(cs, cfg, ByListing);
      EmitLength(l, items, 0, prefix, depth, cfg);
      assert items[0..] == items;
      SumOverSort(cs, NodeWeight);
      ReachableInWeight(cs);
  }

  lemma {:induction false} EmitLength(parent: Listing, items: seq<Node>, i: nat, prefix: string, depth: int, cfg: Config)
    requires parent.Listed? && i <= |items|
    requires forall x :: x in items ==> x in parent.children
    requires ShowsEverything(cfg)
    ensures |Emit(parent, items, i, prefix, depth, cfg, ByListing)| == SumOver(items[i..], NodeWeight)
    decreases parent, 0, |items| - i
  {
    if i < |items| {
      var item := items[i];
      EmitLength(parent, items, i + 1, prefix, depth, cfg);
      assert items[i..][1..] == items[i + 1..];
      if item.Dir? {
        assert item in parent.children;
        WalkLength(item.listing, prefix + Indent(i == |items| - 1), depth + 1, cfg);
      }
    }
  }

  lemma {:induction false} DirsPlusFiles(s: seq<Node>)
    ensures CountIf(s, IsDir) + CountIf(s, IsFile) == |s|
    decreases |s|
  {
    if |s| > 0 {
      DirsPlusFiles(s[1..]);
    }
  }

  /** The same options with the depth limit lifted. */
  function NoLimit(cfg: Config): Config {
    cfg.(maxDepth := None)
  }

  lemma {:induction false} ShownOnlyIgnoresDepth(s: seq<Node>, cfg: Config)
    ensures ShownOnly(s, NoLimit(cfg)) == ShownOnly(s, cfg)
    decreases |s|
  {
    if |s| > 0 {
      ShownOnlyIgnoresDepth(s[1..], cfg);
    }
  }

  /** A depth limit only cuts rows off: the limited walk is never longer than the unlimited one. */
  lemma {:induction false} DepthLimitShrinksWalk(l: Listing, prefix: string, depth: int, cfg: Config)
    ensures |WalkDir(l, prefix, depth, cfg, ByListing)| <= |WalkDir(l, prefix, depth, NoLimit(cfg), ByListing)|
    decreases l, 1
  {
    if !BeyondDepth(cfg, depth) {
      match l
      case Failed(_) =>
      case Listed(cs) =>
        var items := Arrange(cs, cfg, ByListing);
        assert Arrange(cs, NoLimit(cfg), ByListing) == items by {
          ShownOnlyIgnoresDepth(SortByName(cs), cfg);
        }
        DepthLimitShrinksEmit(l, items, 0, prefix, depth, cfg);
    }
  }

  lemma {:induction false} DepthLimitShrinksEmit(parent: Listing, items: seq<Node>, i: nat, prefix: string, depth: int, cfg: Config)
    requires parent.Listed? && i <= |items|
    requires forall x :: x in items ==> x in parent.children
    ensures |Emit(parent, items, i, prefix, depth, cfg, ByListing)| <= |Emit(parent, items, i, prefix, depth, NoLimit(cfg), ByListing)|
    decreases parent, 0, |items| - i
  {
    if i < |items| {
      var item := items[i];
      DepthLimitShrinksEmit(parent, items, i + 1, prefix, depth, cfg);
      if item.Dir? {
        assert item in parent.children;
        DepthLimitShrinksWalk(item.listing, prefix + Indent(i == |items| - 1), depth + 1, cfg);
      }
    }
  }

  /**
   With no depth limit, no filter and folders-only mode off, the body has one line
   per folder and per file that the entry counter counts, plus one error line per
   listing that fails; every option only removes lines, so the header's totals are
   an upper bound on the body under any options.
   */
  lemma BodyLengthMatchesCounter(root: Listing, cfg: Config)
    ensures ShowsEverything(cfg) ==>
      |Body(root, cfg)| == CountIf(Reachable(root), IsDir) + CountIf(Reachable(root), IsFile) + FailedListings(root)
    ensures |Body(root, cfg)| <= CountIf(Reachable(root), IsDir) + CountIf(Reachable(root), IsFile) + FailedListings(root)
  {
    DirsPlusFiles(Reachable(root));
    var n := NoLimit(cfg);
    var u := Unfiltered(n);
    assert ShowsEverything(u);
    WalkLength(root, "", 0, u);
    WalkFiltersRows(root, "", 0, n);
    KeepShownShrinks(WalkDir(root, "", 0, u, ByListing), n);
    DepthLimitShrinksWalk(root, "", 0, cfg);
    if ShowsEverything(cfg) {
      WalkLength(root, "", 0, cfg);
    }
  }

  lemma {:induction false} KeepShownShrinks(rows: seq<Row>, cfg: Config)
    ensures |KeepShown(rows, cfg)| <= |rows|
    decreases |rows|
  {
    if |rows| > 0 {
      KeepShownShrinks(rows[1..], cfg);
    }
  }

  // ------------------------------------------------------------ the last-sibling connector

  const FolderAThenFile: Listing := Listed([File("b.txt", Some(1), None), Dir("a", Listed([]), None)])

  const FoldersOnly: Config := Config(None, false, false, true, None, (name: string, pattern: string) => true)

  const FolderA: Node := Dir("a", Listed([]), None)
  const FileB: Node := File("b.txt", Some(1), None)

  lemma SampleSorted()
    ensures SortByName([FileB, FolderA]) == [FolderA, FileB]
  {
    var a, b := FolderA, FileB;
    assert [b, a][1..] == [a];
    assert [a][1..] == [];
    assert SortByName([a]) == InsertByName(a, []) == [a];
    assert "b.txt"[0] == 'b' && "a"[0] == 'a';
    assert !NameLe(b.name, a.name);
    assert InsertByName(b, [a]) == [a] + InsertByName(b, []);
  }

  lemma SampleShown()
    ensures ShownOnly([FolderA, FileB], FoldersOnly) == [FolderA]
  {
    var a, b := FolderA, FileB;
    assert FoldersOnly.onlyFolders;
    assert !Shown(b, FoldersOnly) && Shown(a, FoldersOnly);
    assert [b][1..] == [];
    assert ShownOnly([b], FoldersOnly) == [];
    assert [a, b][1..] == [b];
  }

  lemma SampleArranged()
    ensures Arrange(FolderAThenFile.children, FoldersOnly, ByListing) == [FolderA, FileB]
    ensures Arrange(FolderAThenFile.children, FoldersOnly, ByShown) == [FolderA]
  {
    assert FolderAThenFile.children == [FileB, FolderA];
    SampleSorted();
    SampleShown();
  }

  lemma EmptyDirectoryWalk(prefix: string, depth: int, cfg: Config, rule: LastRule)
    ensures WalkDir(Listed([]), prefix, depth, cfg, rule) == []
  {
    assert Arrange([], cfg, rule) == [];
  }

  lemma SampleBlocks()
    ensures Block(FolderAThenFile, [FolderA, FileB], 0, "", 0, FoldersOnly, ByListing)
      == [Row("", MidConnector, DirEntry("a", "", ""))]
    ensures Block(FolderAThenFile, [FolderA, FileB], 1, "", 0, FoldersOnly, ByListing) == []
    ensures Block(FolderAThenFile, [FolderA], 0, "", 0, FoldersOnly, ByShown)
      == [Row("", LastConnector, DirEntry("a", "", ""))]
  {
    assert FolderAThenFile.children == [FileB, FolderA];
    EmptyDirectoryWalk(MidIndent, 1, FoldersOnly, ByListing);
    EmptyDirectoryWalk(LastIndent, 1, FoldersOnly, ByShown);
    assert FoldersOnly.onlyFolders;
  }

  lemma SampleEmitAsWritten()
    ensures Emit(FolderAThenFile, [FolderA, FileB], 0, "", 0, FoldersOnly, ByListing) == [Row("", MidConnector, DirEntry("a", "", ""))]
  {
    var p, items := FolderAThenFile, [FolderA, FileB];
    SampleBlocks();
    assert p.children == [FileB, FolderA];
    EmitStep(p, items, 0, "", 0, FoldersOnly, ByListing);
    EmitStep(p, items, 1, "", 0, FoldersOnly, ByListing);
    assert Emit(p, items, 2, "", 0, FoldersOnly, ByListing) == [];
  }

  lemma SampleEmitCorrected()
    ensures Emit(FolderAThenFile, [FolderA], 0, "", 0, FoldersOnly, ByShown) == [Row("", LastConnector, DirEntry("a", "", ""))]
  {
    var p, items := FolderAThenFile, [FolderA];
    SampleBlocks();
    assert p.children == [FileB, FolderA];
    EmitStep(p, items, 0, "", 0, FoldersOnly, ByShown);
    assert Emit(p, items, 1, "", 0, FoldersOnly, ByShown) == [];
  }

  lemma SampleWalkAsWritten()
    ensures WalkDir(FolderAThenFile, "", 0, FoldersOnly, ByListing) == [Row("", MidConnector, DirEntry("a", "", ""))]
  {
    SampleArranged();
    SampleEmitAsWritten();
  }

  lemma SampleWalkCorrected()
    ensures WalkDir(FolderAThenFile, "", 0, FoldersOnly, ByShown) == [Row("", LastConnector, DirEntry("a", "", ""))]
  {
    SampleArranged();
    SampleEmitCorrected();
  }

  lemma SampleLineTexts()
    ensures RowText(Row("", MidConnector, DirEntry("a", "", ""))) == "├── 📁 a"
    ensures RowText(Row("", LastConnector, DirEntry("a", "", ""))) == "└── 📁 a"
  {
    assert EntryText(DirEntry("a", "", "")) == "📁 a";
  }

  lemma SingleRowText(r: Row)
    ensures Texts([r]) == [RowText(r)]
  {
  }

  /**
   When the last entry of a listing is a hidden file, the renderer as written
   leaves the last shown row with `├── `.
   */
  lemma HiddenLastFileKeepsMidConnector()
    ensures Body(FolderAThenFile, FoldersOnly) == ["├── 📁 a"]
  {
    SampleWalkAsWritten();
    SampleLineTexts();
    SingleRowText(Row("", MidConnector, DirEntry("a", "", "")));
  }

  /** On the same listing the corrected rule closes the directory with `└── `. */
  lemma CorrectedRuleClosesLastShownRow()
    ensures CorrectedBody(FolderAThenFile, FoldersOnly) == ["└── 📁 a"]
  {
    SampleWalkCorrected();
    SampleLineTexts();
    SingleRowText(Row("", LastConnector, DirEntry("a", "", "")));
  }
}

=== FILE: size_format.dfy ===
/**
 Human-readable sizes as `get_size_str` writes them: exact bytes below 1024,
 otherwise the amount in KB, MB or GB (binary thousands) with two decimals.
 */
module SizeFormat {
  import opened Wrappers
  import opened Text

  const KiB: nat := 1024
  const MiB: nat := 1024 * 1024
  const GiB: nat := 1024 * 1024 * 1024

  datatype Unit = B | KB | MB | GB

  function UnitBytes(u: Unit): nat {
    match u
    case B => 1
    case KB => KiB
    case MB => MiB
    case GB => GiB
  }

  function UnitName(u: Unit): string {
    match u
    case B => "B"
    case KB => "KB"
    case MB => "MB"
    case GB => "GB"
  }

  /** The unit `get_size_str` picks: the largest unit not exceeding the size, B below 1024 and GB at most. */
  function UnitOf(n: nat): (u: Unit)
    ensures u == B || UnitBytes(u) <= n
    ensures u == GB || n < 1024 * UnitBytes(u)
  {
    if n < KiB then B else if n < MiB then KB else if n < GiB then MB else GB
  }

  /**
   The nearest whole number to `a / d`, ties to the even neighbour: how `format(x, ".2f")`
   rounds the exact value of `x`.
   */
  function RoundHalfEven(a: nat, d: nat): (q: nat)
    requires d > 0
    ensures -(d as int) <= 2 * (q * d - a) <= d
    ensures 2 * (q * d - a) == d || 2 * (q * d - a) == -(d as int) ==> q % 2 == 0
  {
    var q, r := a / d, a % d;
    assert a == q * d + r;
    if 2 * r < d then q
    else if 2 * r > d then q + 1
    else if q % 2 == 0 then q
    else q + 1
  }

  /** The text `"<whole>.<two digits>"` of an amount given in hundredths. */
  function TwoDecimals(h: nat): string {
    NatToString(h / 100) + "." + [DigitChar(h % 100 / 10), DigitChar(h % 10)]
  }

  /** `f"{n / d:.2f}"` for an exactly representable quotient. */
  function Fixed2(n: nat, d: nat): string
    requires d > 0
  {
    TwoDecimals(RoundHalfEven(100 * n, d))
  }

  /** `get_size_str(size_bytes)` for a non-negative size. */
  function SizeStr(n: nat): string {
    if n < KiB then NatToString(n) + " B"
    else if n < MiB then Fixed2(n, KiB) + " KB"
    else if n < GiB then Fixed2(n, MiB) + " MB"
    else Fixed2(n, GiB) + " GB"
  }

  /** Reads `"<whole>.<d><d>"` back as a number of hundredths. */
  function ReadFixed2(t: string): Option<nat> {
    if |t| >= 4 && t[|t| - 3] == '.' && IsDigit(t[|t| - 2]) && IsDigit(t[|t| - 1]) then
      match ParseNat(t[..|t| - 3])
      case Some(w) => Some(w * 100 + DigitValue(t[|t| - 2]) * 10 + DigitValue(t[|t| - 1]))
      case None => None
    else None
  }

  /** Reads a size text back as (amount in hundredths of the unit, unit). */
  function ReadSize(s: string): Option<(nat, Unit)> {
    if EndsWith(s, " KB") then
      match ReadFixed2(s[..|s| - 3]) case Some(h) => Some((h, KB)) case None => None
    else if EndsWith(s, " MB") then
      match ReadFixed2(s[..|s| - 3]) case Some(h) => Some((h, MB)) case None => None
    else if EndsWith(s, " GB") then
      match ReadFixed2(s[..|s| - 3]) case Some(h) => Some((h, GB)) case None => None
    else if EndsWith(s, " B") then
      match ParseNat(s[..|s| - 2]) case Some(v) => Some((100 * v, B)) case None => None
    else None
  }

  lemma DigitRoundTrip(d: nat)
    requires d < 10
    ensures DigitValue(DigitChar(d)) == d
  {
  }

  lemma ReadTwoDecimals(h: nat)
    ensures ReadFixed2(TwoDecimals(h)) == Some(h)
  {
    var w := NatToString(h / 100);
    var t := TwoDecimals(h);
    DigitRoundTrip(h % 100 / 10);
    DigitRoundTrip(h % 10);
    assert t[..|t| - 3] == w;
    ParseNatToString(h / 100);
  }

  lemma ReadWithUnit(h: nat, u: Unit)
    requires u != B
    ensures ReadSize(TwoDecimals(h) + " " + UnitName(u)) == Some((h, u))
  {
    var t := TwoDecimals(h);
    var s := t + " " + UnitName(u);
    assert s[..|s| - 3] == t;
    assert s[|s| - 3..] == " " + UnitName(u);
    ReadTwoDecimals(h);
    match u
    case KB =>
    case MB =>
      assert s[|s| - 2] == 'M';
    case GB =>
      assert s[|s| - 2] == 'G';
  }

  lemma ReadBytes(n: nat)
    ensures ReadSize(NatToString(n) + " B") == Some((100 * n, B))
  {
    var s := NatToString(n) + " B";
    assert s[..|s| - 2] == NatToString(n);
    assert s[|s| - 2..] == " B";
    assert s[|s| - 2] == ' ';
    assert !EndsWith(s, " KB") && !EndsWith(s, " MB") && !EndsWith(s, " GB") by {
      if |s| >= 3 {
        assert s[|s| - 3..][1] == s[|s| - 2];
      }
    }
    ParseNatToString(n);
  }

  /** Every size at or above 1 KiB is written as a two-decimal amount followed by its unit's name. */
  lemma SizeStrShape(n: nat)
    requires n >= KiB
    ensures SizeStr(n) == TwoDecimals(RoundHalfEven(100 * n, UnitBytes(UnitOf(n)))) + " " + UnitName(UnitOf(n))
  {
  }

  /**
   The layout of every size text: below 1 KiB a canonical numeral, a space and `B`; from 1 KiB
   up a canonical whole part, a point, exactly two digits, a space and the name of the unit
   `UnitOf` picks.
   */
  lemma SizeStrLayout(n: nat)
    ensures var s, u := SizeStr(n), UnitOf(n);
      if u == B then
        |s| >= 3 && Canonical(s[..|s| - 2]) && s[|s| - 2..] == " B"
      else
        |s| >= 7 && Canonical(s[..|s| - 6]) && s[|s| - 6] == '.' && IsDigit(s[|s| - 5]) && IsDigit(s[|s| - 4])
        && s[|s| - 3..] == " " + UnitName(u)
  {
    var s := SizeStr(n);
    if n < KiB {
      assert s[..|s| - 2] == NatToString(n);
    } else {
      var u := UnitOf(n);
      var h := RoundHalfEven(100 * n, UnitBytes(u));
      var w := NatToString(h / 100);
      SizeStrShape(n);
      assert s == w + "." + [DigitChar(h % 100 / 10), DigitChar(h % 10)] + " " + UnitName(u);
      assert s[..|s| - 6] == w;
    }
  }

  /**
   The size text reads back as the unit `UnitOf` picks and an amount within half a
   hundredth of the exact size in that unit (exact for bytes); an exact tie goes to the
   even hundredth.
   */
  lemma SizeStrReadsBack(n: nat)
    ensures ReadSize(SizeStr(n)).Some?
    ensures ReadSize(SizeStr(n)).value.1 == UnitOf(n)
    ensures var h, d := ReadSize(SizeStr(n)).value.0, UnitBytes(UnitOf(n));
      -(d as int) <= 2 * (h * d - 100 * n) <= d
      && (2 * (h * d - 100 * n) == d || 2 * (h * d - 100 * n) == -(d as int) ==> h % 2 == 0)
    ensures n < KiB ==> SizeStr(n) == NatToString(n) + " B" && ReadSize(SizeStr(n)) == Some((100 * n, B))
  {
    if n < KiB {
      ReadBytes(n);
    } else {
      var u := UnitOf(n);
      var h := RoundHalfEven(100 * n, UnitBytes(u));
      SizeStrShape(n);
      ReadWithUnit(h, u);
      assert ReadSize(SizeStr(n)) == Some((h, u));
    }
  }

  lemma BytesBelowKiB()
    ensures SizeStr(0) == "0 B"
    ensures SizeStr(1023) == "1023 B"
  {
    assert NatToString(1) == "1";
    assert NatToString(10) == "10" by {
      assert NatToString(10) == NatToString(1) + [DigitChar(0)];
    }
    assert NatToString(102) == "102" by {
      assert NatToString(102) == NatToString(10) + [DigitChar(2)];
    }
    assert NatToString(1023) == "1023" by {
      assert NatToString(1023) == NatToString(102) + [DigitChar(3)];
    }
  }

  lemma UnitThresholds()
    ensures SizeStr(1024) == "1.00 KB"
    ensures SizeStr(1024 * 1024) == "1.00 MB"
    ensures SizeStr(1024 * 1024 * 1024) == "1.00 GB"
  {
    assert RoundHalfEven(100 * 1024, KiB) == 100;
    assert RoundHalfEven(100 * MiB, MiB) == 100;
    assert RoundHalfEven(100 * GiB, GiB) == 100;
    assert TwoDecimals(100) == "1.00";
  }

  /** 1.125 KB is an exact tie and rounds to the even hundredth; 1.375 KB rounds up. */
  lemma TiesGoToEven()
    ensures SizeStr(1152) == "1.12 KB"
    ensures SizeStr(1408) == "1.38 KB"
  {
    assert 100 * 1152 == 112 * 1024 + 512;
    assert RoundHalfEven(100 * 1152, KiB) == 112;
    assert TwoDecimals(112) == "1.12";
    assert 100 * 1408 == 137 * 1024 + 512;
    assert RoundHalfEven(100 * 1408, KiB) == 138;
    assert TwoDecimals(138) == "1.38";
  }

  /** One byte short of a MiB stays in the KB branch, and its amount rounds up to 1024.00. */
  lemma LastKiBAmountRoundsUp()
    ensures SizeStr(1024 * 1024 - 1) == "1024.00 KB"
  {
    assert 100 * (MiB - 1) == 102399 * 1024 + 924;
    assert RoundHalfEven(100 * (MiB - 1), KiB) == 102400;
    assert NatToString(1) == "1";
    assert NatToString(10) == "10" by {
      assert NatToString(10) == NatToString(1) + [DigitChar(0)];
    }
    assert NatToString(102) == "102" by {
      assert NatToString(102) == NatToString(10) + [DigitChar(2)];
    }
    assert NatToString(1024) == "1024" by {
      assert NatToString(1024) == NatToString(102) + [DigitChar(4)];
    }
    assert TwoDecimals(102400) == "1024.00";
  }
}

=== FILE: text.dfy ===
/**
 Decimal rendering of natural numbers, its inverse, suffix tests and the
 code-point order that Python's `sorted` uses on file names.
 */
module Text {
  import opened Wrappers

  predicate IsDigit(c: char) {
    '0' <= c <= '9'
  }

  predicate AllDigits(s: string) {
    forall i :: 0 <= i < |s| ==> IsDigit(s[i])
  }

  /** A decimal numeral as Python's `str(int)` writes it: non-empty, no leading zero unless it is "0". */
  predicate Canonical(s: string) {
    |s| > 0 && AllDigits(s) && (s[0] != '0' || |s| == 1)
  }

  function DigitChar(d: nat): (c: char)
    requires d < 10
    ensures IsDigit(c)
  {
    "0123456789"[d]
  }

  function DigitValue(c: char): (d: nat)
    requires IsDigit(c)
    ensures d < 10
  {
    (c as int - '0' as int) as nat
  }

  /** The number a string of digits denotes, most significant digit first. */
  function DigitsValue(s: string): nat
    requires AllDigits(s)
  {
    if |s| == 0 then 0 else DigitsValue(s[..|s| - 1]) * 10 + DigitValue(s[|s| - 1])
  }

  /** `str(n)` for a non-negative Python int. */
  function NatToString(n: nat): (r: string)
    ensures Canonical(r)
    ensures DigitsValue(r) == n
    decreases n
  {
    if n < 10 then [DigitChar(n)]
    else
      var init := NatToString(n / 10);
      var r := init + [DigitChar(n % 10)];
      assert r[..|r| - 1] == init;
      r
  }

  /** Reads a non-empty string of decimal digits back into a number. */
  function ParseNat(s: string): (r: Option<nat>)
    ensures r.Some? <==> |s| > 0 && AllDigits(s)
  {
    if |s| > 0 && AllDigits(s) then Some(DigitsValue(s)) else None
  }

  lemma ParseNatToString(n: nat)
    ensures ParseNat(NatToString(n)) == Some(n)
  {
  }

  lemma {:induction false} LeadingDigitBound(s: string)
    requires |s| > 0 && AllDigits(s) && s[0] != '0'
    ensures DigitsValue(s) >= 1
    decreases |s|
  {
    if |s| > 1 {
      LeadingDigitBound(s[..|s| - 1]);
    }
  }

  lemma DigitCharOfValue(c: char)
    requires IsDigit(c)
    ensures DigitChar(DigitValue(c)) == c
  {
  }

  /** Dropping the last digit of a numeral divides its value by ten; that digit is the remainder. */
  lemma LastDigitSplit(s: string)
    requires |s| > 0 && AllDigits(s)
    ensures DigitsValue(s) / 10 == DigitsValue(s[..|s| - 1])
    ensures DigitsValue(s) % 10 == DigitValue(s[|s| - 1])
  {
  }

  /** The other half of the round trip: every canonical numeral is the rendering of its own value. */
  lemma {:induction false} NatToStringOfCanonical(s: string)
    requires Canonical(s)
    ensures NatToString(DigitsValue(s)) == s
    decreases |s|
  {
    if |s| > 1 {
      var init := s[..|s| - 1];
      assert Canonical(init);
      LeadingDigitBound(init);
      NatToStringOfCanonical(init);
      LastDigitSplit(s);
      DigitCharOfValue(s[|s| - 1]);
      assert s == init + [s[|s| - 1]];
    } else {
      DigitCharOfValue(s[0]);
    }
  }

  /** Python's `str.endswith(suffix)`; case-sensitive. */
  predicate EndsWith(s: string, suffix: string) {
    |suffix| <= |s| && s[|s| - |suffix|..] == suffix
  }

  /** `a <= b` on Python strings: lexicographic by code point, a proper prefix comes first. */
  predicate NameLe(a: string, b: string) {
    |a| == 0 || (|b| > 0 && (a[0] < b[0] || (a[0] == b[0] && NameLe(a[1..], b[1..]))))
  }

  lemma {:induction false} NameLeTotal(a: string, b: string)
    ensures NameLe(a, b) || NameLe(b, a)
    decreases |a|
  {
    if |a| > 0 && |b| > 0 && a[0] == b[0] {
      NameLeTotal(a[1..], b[1..]);
    }
  }

  lemma {:induction false} NameLeAntisymmetric(a: string, b: string)
    requires NameLe(a, b) && NameLe(b, a)
    ensures a == b
    decreases |a|
  {
    if |a| > 0 {
      NameLeAntisymmetric(a[1..], b[1..]);
      assert a == [a[0]] + a[1..] && b == [b[0]] + b[1..];
    }
  }

  lemma {:induction false} NameLeTransitive(a: string, b: string, c: string)
    requires NameLe(a, b) && NameLe(b, c)
    ensures NameLe(a, c)
    decreases |a|
  {
    if |a| > 0 && a[0] == b[0] && b[0] == c[0] {
      NameLeTransitive(a[1..], b[1..], c[1..]);
    }
  }
}

=== FILE: tree.dfy ===
/**
 The filesystem as an immutable tree, the name order `sorted` imposes on a
 listing, and the two whole-subtree folds: the entry counter (`count_items`)
 and the recursive size sum of a directory.
 */
module FileTree {
  import opened Wrappers
  import opened Text

  /** Why listing a directory failed: a permission error, or any other error with its message. */
  datatype ListError = PermissionDenied | OtherError(message: string)

  /** The outcome of listing one directory. */
  datatype Listing = Listed(children: seq<Node>) | Failed(error: ListError)

  /**
   An entry of a directory. A file's size and an entry's formatted modification
   time are `None` when looking them up fails.
   */
  datatype Node =
    | File(name: string, size: Option<nat>, modified: Option<string>)
    | Dir(name: string, listing: Listing, modified: Option<string>)

  predicate IsDir(n: Node) {
    n.Dir?
  }

  predicate IsFile(n: Node) {
    n.File?
  }

  // ---------------------------------------------------------------- ordering

  predicate SortedByName(s: seq<Node>) {
    forall i :: 0 <= i < |s| - 1 ==> NameLe(s[i].name, s[i + 1].name)
  }

  function InsertByName(x: Node, s: seq<Node>): (r: seq<Node>)
    requires SortedByName(s)
    ensures |r| == |s| + 1
    ensures SortedByName(r)
    ensures multiset(r) == multiset(s) + multiset{x}
    ensures r[0] == x || (|s| > 0 && r[0] == s[0])
  {
    if |s| == 0 || NameLe(x.name, s[0].name) then [x] + s
    else
      NameLeTotal(x.name, s[0].name);
      assert s == [s[0]] + s[1..];
      [s[0]] + InsertByName(x, s[1..])
  }

  /** `sorted(os.listdir(...))`: the entries ordered by name, nothing added or lost. */
  function SortByName(s: seq<Node>): (r: seq<Node>)
    ensures |r| == |s|
    ensures SortedByName(r)
    ensures multiset(r) == multiset(s)
  {
    if |s| == 0 then []
    else
      assert s == [s[0]] + s[1..];
      InsertByName(s[0], SortByName(s[1..]))
  }

  lemma SortedMembers(s: seq<Node>, x: Node)
    ensures x in SortByName(s) <==> x in s
  {
    assert x in SortByName(s) <==> x in multiset(SortByName(s));
  }

  /** Sum of `f` over a sequence of entries. */
  function SumOver(s: seq<Node>, f: Node -> nat): nat {
    if |s| == 0 then 0 else f(s[0]) + SumOver(s[1..], f)
  }

  lemma {:induction false} SumOverInsert(x: Node, s: seq<Node>, f: Node -> nat)
    requires SortedByName(s)
    ensures SumOver(InsertByName(x, s), f) == f(x) + SumOver(s, f)
    decreases |s|
  {
    if |s| > 0 && !NameLe(x.name, s[0].name) {
      SumOverInsert(x, s[1..], f);
    }
  }

  /** Sorting a listing changes no sum over its entries. */
  lemma {:induction false} SumOverSort(s: seq<Node>, f: Node -> nat)
    ensures SumOver(SortByName(s), f) == SumOver(s, f)
    decreases |s|
  {
    if |s| > 0 {
      SumOverSort(s[1..], f);
      SumOverInsert(s[0], SortByName(s[1..]), f);
    }
  }

  /** Entries that share a name are the same entry, as in one directory listing. */
  predicate UniqueNames(s: seq<Node>) {
    forall x, y :: x in s && y in s && x.name == y.name ==> x == y
  }

  lemma {:induction false} SortedHeadFirst(s: seq<Node>, j: nat)
    requires SortedByName(s) && j < |s|
    ensures NameLe(s[0].name, s[j].name)
    decreases j
  {
    if j == 0 {
      NameLeTotal(s[0].name, s[0].name);
    } else {
      SortedHeadFirst(s, j - 1);
      NameLeTransitive(s[0].name, s[j - 1].name, s[j].name);
    }
  }

  /** Two name-sorted orderings of the same non-empty entries with unique names start alike. */
  lemma SortedHeadsAgree(a: seq<Node>, b: seq<Node>)
    requires SortedByName(a) && SortedByName(b) && |a| > 0 && |b| > 0
    requires multiset(a) == multiset(b)
    requires UniqueNames(a)
    ensures a[0] == b[0]
  {
    assert b[0] in multiset(a) && a[0] in multiset(b);
    var k :| 0 <= k < |a| && a[k] == b[0];
    var m :| 0 <= m < |b| && b[m] == a[0];
    SortedHeadFirst(a, k);
    SortedHeadFirst(b, m);
    NameLeAntisymmetric(a[0].name, b[0].name);
  }

  lemma TailsPermuted(a: seq<Node>, b: seq<Node>)
    requires |a| > 0 && |b| > 0 && a[0] == b[0]
    requires multiset(a) == multiset(b)
    ensures multiset(a[1..]) == multiset(b[1..])
  {
    assert a == [a[0]] + a[1..] && b == [b[0]] + b[1..];
    assert multiset(a) == multiset{a[0]} + multiset(a[1..]);
    assert multiset(b) == multiset{b[0]} + multiset(b[1..]);
    assert multiset(a[1..]) == multiset(a) - multiset{a[0]};
    assert multiset(b[1..]) == multiset(b) - multiset{b[0]};
  }

  /** Two name-sorted orderings of the same entries with unique names are the same sequence. */
  lemma {:induction false} SortedPermutationUnique(a: seq<Node>, b: seq<Node>)
    requires SortedByName(a) && SortedByName(b)
    requires multiset(a) == multiset(b)
    requires UniqueNames(a)
    ensures a == b
    decreases |a|
  {
    assert |a| == |multiset(a)| == |multiset(b)| == |b|;
    if |a| > 0 {
      SortedHeadsAgree(a, b);
      TailsPermuted(a, b);
      assert UniqueNames(a[1..]) by {
        forall x, y | x in a[1..] && y in a[1..] && x.name == y.name
          ensures x == y
        {
          assert x in a && y in a;
        }
      }
      SortedPermutationUnique(a[1..], b[1..]);
      assert a == [a[0]] + a[1..] && b == [b[0]] + b[1..];
    }
  }

  /**
   `sorted` has exactly one possible result on a listing whose names are unique:
   every name-ordered rearrangement of it is `SortByName`'s.
   */
  lemma SortByNameIsTheSortedOrder(cs: seq<Node>, r: seq<Node>)
    requires UniqueNames(cs)
    requires SortedByName(r) && multiset(r) == multiset(cs)
    ensures r == SortByName(cs)
  {
    assert UniqueNames(r) by {
      forall x, y | x in r && y in r && x.name == y.name
        ensures x == y
      {
        assert x in multiset(cs) && y in multiset(cs);
      }
    }
    SortedPermutationUnique(r, SortByName(cs));
  }

  // ------------------------------------------------------------ reachability

  /**
   Every entry at any depth below a directory, as `os.walk` reaches it: the
   contents of a directory whose listing fails are not reached.
   */
  function Reachable(l: Listing): seq<Node>
    decreases l
  {
    match l
    case Failed(_) => []
    case Listed(cs) => ReachableIn(cs)
  }

  function ReachableIn(cs: seq<Node>): seq<Node>
    decreases cs
  {
    if |cs| == 0 then []
    else [cs[0]] + (if cs[0].Dir? then Reachable(cs[0].listing) else []) + ReachableIn(cs[1..])
  }

  function CountIf(s: seq<Node>, p: Node -> bool): nat {
    if |s| == 0 then 0 else (if p(s[0]) then 1 else 0) + CountIf(s[1..], p)
  }

  lemma {:induction false} CountIfAppend(a: seq<Node>, b: seq<Node>, p: Node -> bool)
    ensures CountIf(a + b, p) == CountIf(a, p) + CountIf(b, p)
    decreases |a|
  {
    if |a| > 0 {
      assert (a + b)[1..] == a[1..] + b;
      CountIfAppend(a[1..], b, p);
    } else {
      assert a + b == b;
    }
  }

  // ------------------------------------------------------------ entry counter

  /** The listings of the sub-directories among `cs`: what `os.walk` descends into next. */
  function SubDirListings(cs: seq<Node>): (r: seq<Listing>)
    ensures |r| == CountIf(cs, IsDir)
  {
    if |cs| == 0 then []
    else (if cs[0].Dir? then [cs[0].listing] else []) + SubDirListings(cs[1..])
  }

  /** Entries matching `p` below each of the pending listings, summed. */
  function PendingCount(ls: seq<Listing>, p: Node -> bool): nat {
    if |ls| == 0 then 0 else CountIf(Reachable(ls[0]), p) + PendingCount(ls[1..], p)
  }

  /** A bound on the work left for the pending listings. */
  function PendingWeight(ls: seq<Listing>): nat {
    if |ls| == 0 then 0 else 1 + |Reachable(ls[0])| + PendingWeight(ls[1..])
  }

  lemma {:induction false} PendingAppend(a: seq<Listing>, b: seq<Listing>, p: Node -> bool)
    ensures PendingCount(a + b, p) == PendingCount(a, p) + PendingCount(b, p)
    ensures PendingWeight(a + b) == PendingWeight(a) + PendingWeight(b)
    decreases |a|
  {
    if |a| > 0 {
      assert (a + b)[1..] == a[1..] + b;
      PendingAppend(a[1..], b, p);
    } else {
      assert a + b == b;
    }
  }

  /**
   What one directory contributes: its own matching entries plus those below its
   sub-directories; and descending into the sub-directories is less work than the
   whole directory.
   */
  lemma {:induction false} ReachableInSplit(cs: seq<Node>, p: Node -> bool)
    ensures CountIf(ReachableIn(cs), p) == CountIf(cs, p) + PendingCount(SubDirListings(cs), p)
    ensures PendingWeight(SubDirListings(cs)) <= |ReachableIn(cs)|
    decreases |cs|
  {
    if |cs| > 0 {
      var below := if cs[0].Dir? then Reachable(cs[0].listing) else [];
      var head := if cs[0].Dir? then [cs[0].listing] else [];
      ReachableInSplit(cs[1..], p);
      CountIfAppend([cs[0]] + below, ReachableIn(cs[1..]), p);
      CountIfAppend([cs[0]], below, p);
      PendingAppend(head, SubDirListings(cs[1..]), p);
    }
  }

  /**
   `count_items`: the number of directories and of files at any depth strictly
   below the root, with no depth limit and no filter; a directory whose listing
   fails is counted but contributes nothing below it.
   */
  method CountItems(root: Listing) returns (folders: nat, files: nat)
    ensures folders == CountIf(Reachable(root), IsDir)
    ensures files == CountIf(Reachable(root), IsFile)
  {
    folders, files := 0, 0;
    var pending := [root];
    assert pending[1..] == [];
    while pending != []
      invariant folders + PendingCount(pending, IsDir) == CountIf(Reachable(root), IsDir)
      invariant files + PendingCount(pending, IsFile) == CountIf(Reachable(root), IsFile)
      decreases PendingWeight(pending)
    {
      var top := pending[0];
      pending := pending[1..];
      match top {
        case Failed(_) =>
        case Listed(cs) =>
          ReachableInSplit(cs, IsDir);
          ReachableInSplit(cs, IsFile);
          PendingAppend(SubDirListings(cs), pending, IsDir);
          PendingAppend(SubDirListings(cs), pending, IsFile);
          folders := folders + CountIf(cs, IsDir);
          files := files + CountIf(cs, IsFile);
          pending := SubDirListings(cs) + pending;
      }
    }
  }

  // ------------------------------------------------------------ directory size

  /**
   The size sum over `os.walk` of a directory: `None` as soon as one reached
   file's size cannot be read; a failed listing contributes nothing.
   */
  function DirTotal(l: Listing): Option<nat>
    decreases l
  {
    match l
    case Failed(_) => Some(0)
    case Listed(cs) => TotalIn(cs)
  }

  function TotalIn(cs: seq<Node>): Option<nat>
    decreases cs
  {
    if |cs| == 0 then Some(0)
    else
      var head := if cs[0].File? then cs[0].size else DirTotal(cs[0].listing);
      var tail := TotalIn(cs[1..]);
      if head.Some? && tail.Some? then Some(head.value + tail.value) else None
  }

  predicate AllSizesKnown(s: seq<Node>) {
    forall i :: 0 <= i < |s| && s[i].File? ==> s[i].size.Some?
  }

  /** The sum of the known sizes of the files in `s`. */
  function FileSizeSum(s: seq<Node>): nat {
    if |s| == 0 then 0
    else (if s[0].File? && s[0].size.Some? then s[0].size.value else 0) + FileSizeSum(s[1..])
  }

  lemma {:induction false} FileSizeSumAppend(a: seq<Node>, b: seq<Node>)
    ensures FileSizeSum(a + b) == FileSizeSum(a) + FileSizeSum(b)
    ensures AllSizesKnown(a + b) <==> AllSizesKnown(a) && AllSizesKnown(b)
    decreases |a|
  {
    if |a| > 0 {
      assert (a + b)[1..] == a[1..] + b;
      FileSizeSumAppend(a[1..], b);
    } else {
      assert a + b == b;
    }
    assert forall i :: 0 <= i < |a| ==> (a + b)[i] == a[i];
    assert forall i :: 0 <= i < |b| ==> (a + b)[|a| + i] == b[i];
  }

  /**
   A directory's size is the sum of the sizes of all files at any depth beneath
   it, and the size is unavailable exactly when one of those sizes is.
   */
  lemma {:induction false} DirTotalIsSumOfFiles(l: Listing)
    ensures DirTotal(l) == if AllSizesKnown(Reachable(l)) then Some(FileSizeSum(Reachable(l))) else None
    decreases l
  {
    match l
    case Failed(_) =>
    case Listed(cs) => TotalInIsSumOfFiles(cs);
  }

  lemma {:induction false} TotalInIsSumOfFiles(cs: seq<Node>)
    ensures TotalIn(cs) == if AllSizesKnown(ReachableIn(cs)) then Some(FileSizeSum(ReachableIn(cs))) else None
    decreases cs
  {
    if |cs| > 0 {
      var below := if cs[0].Dir? then Reachable(cs[0].listing) else [];
      if cs[0].Dir? {
        DirTotalIsSumOfFiles(cs[0].listing);
      }
      TotalInIsSumOfFiles(cs[1..]);
      FileSizeSumAppend([cs[0]] + below, ReachableIn(cs[1..]));
      FileSizeSumAppend([cs[0]], below);
    }
  }
}

=== FILE: wrappers.dfy ===
/** The optional-value datatype used for lookups that can fail (a file size, a modification time). */
module Wrappers {

  datatype Option<+T> = None | Some(value: T)
}
